=== FILE: README.md ===
# RT-Viewer: slice navigation and series grouping, in Dafny

RT-Viewer shows a DICOM image series one slice at a time. It draws the outline of
a "Liver" ROI from an RT structure set over the slice on display. This project
models the two parts of it that are pure logic:

- **The viewer** (`rt_viewer.dfy`, module `RtViewer`, from `rt_viewer.py`). This
  covers the construction guards of `RTViewer` and the slice index `current_slice`.
  Key presses and the slider move that index. Each render derives values from
  it: the image shown, the 1-based title counter, the mask plane read by the
  overlay, and the `min_size` threshold the overlay receives.
- **The launcher** (`launcher.dfy`, module `Launcher`, from `main.py`). This
  covers `find_rs_structure_file`, the loop that puts the readable CT, MR and PET
  files of a directory into a series dictionary, and the loop that opens one
  viewer per series.

`wrappers.dfy` defines `Option` (Python's `None`) and `Result` (a value or a
raised exception).

The model follows the code as written. Three behaviours of the code are worth
knowing:

- The structure set's series UID is read before any `None` test. A viewer built
  without a structure set therefore raises (`NoneHasNoSeriesData`). In `main`
  this ends the launch at the first series when no structure file was found.
- A structure set whose UID does not match is not retained. Its mask is still
  loaded and overlaid.
- Both handlers call `overlay_roi_contour(self.current_slice)`. The index binds
  to `min_size`, so the cleaning threshold of every render is the slice index,
  not the declared default 32.

The code does not clamp a slider value. The slider's range `[0, N-1]` with step
1 keeps it on a slice, so slider events carry an in-range value. With zero
slices, `__init__` prints and returns early instead of raising. That viewer has
no figure and no handlers, and it is modelled with `interactive` false. The
launcher never builds one, because every group it forms is non-empty.

The mask plane is the Python index `-i-1` into a mask of depth `D`.
`RtViewer.PyIndex` spells out Python's negative indexing. `MaskPlane` resolves it
to plane `D-1-i`, which exists only when `i < D`.

The loader, the structure-set builder, drawing, and the skimage cleaning and
contour tracing are not modelled. A render is described by what it asks of them:
which slice's pixels, which title, and which mask plane with which threshold.

## Model

| member | source | states |
|---|---|---|
| RtViewer.OpeningFrame | rt_viewer.py:40-41 | The frame drawn at construction always shows the current slice's image with the title "i+1/N" and draws no contour. When a render of the same state succeeds, the two agree except for the overlay. |
| RtViewer.Construct | rt_viewer.py:21-39 | A `None` structure raises before anything else. A structure with no series data raises. Otherwise the structure is retained exactly when its first series UID equals the viewer's. Zero slices leave no mask and no handlers. With slices, the mask is loaded from the structure whatever its UID, and the index starts at 0 on a slice. |
| RtViewer.OpensOnFirstSlice | rt_viewer.py:39-41 | Construction shows slice 0 titled "1/N" and draws no contour, because the overlay is not called until the first event. |
| RtViewer.MaskLoadedOnMismatch | rt_viewer.py:25-34 | A structure whose UID does not match is dropped, but its mask is still loaded. |
| RtViewer.ZeroSlicesStopBeforeMask | rt_viewer.py:25-34 | With zero slices, the UID check still runs, but no mask is loaded and the viewer is not interactive. |
| RtViewer.PyIndex | rt_viewer.py:90 | Python indexing: an index is valid exactly when it lies in `[-len, len)`, and it resolves to the in-range position congruent to it modulo `len`. |
| RtViewer.MaskPlane | rt_viewer.py:90 | Slice `i >= 0` reads a plane exactly when `i < D`, and that plane is `D-1-i`. |
| RtViewer.MaskPlaneBijection | rt_viewer.py:90 | When `D = N`, the slices map one to one onto the planes, with `SliceOfPlane` as the inverse. Slice 0 reads the last plane and the last slice reads plane 0. |
| RtViewer.OverlayRoiContour | rt_viewer.py:79-91 | With no mask, the overlay does nothing. With a mask, it succeeds exactly when the current slice has a plane. It then traces that plane with the `min_size` it was given. Otherwise it raises `MaskPlaneOutOfRange`. |
| RtViewer.Render | rt_viewer.py:58-60 | A render shows the current slice with counter `i+1` of `N`. It traces a contour exactly when a mask is loaded, on plane `D-1-i` with threshold `i`. It fails exactly when the mask's depth is at most the index. |
| RtViewer.ThresholdIsSliceIndex | rt_viewer.py:76-91 | The cleaning threshold passed on a render is the slice index. It equals the default 32 only on slice 32. |
| RtViewer.KeyTarget | rt_viewer.py:69-72 | From a slice: "down"/"right" moves one slice on and stays put only on the last slice. "up"/"left" moves one slice back and stays put only on slice 0. Any other key leaves the index unchanged. The result is always a slice. |
| RtViewer.OnKey | rt_viewer.py:63-77 | A key press changes only the index, to the key's target, and then re-renders for every key, including keys that do not move. |
| RtViewer.OnSlider | rt_viewer.py:51-61 | A slider move sets the index to the slider's value, changes nothing else, and re-renders. |
| RtViewer.Step | rt_viewer.py:48-49 | A key press is handled by `update_slice` (`OnKey`) and a slider change by `update` (`OnSlider`). Either way the viewer stays on a slice, only the index changes, and the new state is re-rendered. |
| RtViewer.Session | rt_viewer.py:48-77 | Events are handled one after another: the first event is dispatched from the starting state and each later one from the state the previous event left. After every event the index names a slice, no other field has changed, and the event yields one render of the new state. |
| RtViewer.Final | rt_viewer.py:51-77 | The index after a whole session lies in `[0, N-1]`. |
| RtViewer.IndexStaysInRange | rt_viewer.py:39-72 | From a freshly constructed viewer with `N >= 1`, every event sequence keeps the index in `[0, N-1]` at every point. |
| RtViewer.DeepMaskNeverFails | rt_viewer.py:83-90 | With no mask, or a mask at least as deep as the stack, no render of a session raises. |
| RtViewer.ShallowMaskFails | rt_viewer.py:90 | Rendering a slice at or beyond the mask's depth raises `MaskPlaneOutOfRange`. |
| RtViewer.ForwardPresses | rt_viewer.py:69-70 | `k` presses of "down" or "right" from slice `i` reach `min(i+k, N-1)`. |
| RtViewer.BackwardPresses | rt_viewer.py:71-72 | `k` presses of "up" or "left" from slice `i` reach `max(i-k, 0)`. |
| RtViewer.TenSliceWalk | rt_viewer.py:39-70 | For ten slices, the viewer opens on slice 0. Five "down" presses reach slice 5, and fifteen stop at slice 9. |
| Launcher.FindRsStructureFile | main.py:14-21 | The result is `None` exactly when the glob found nothing, and otherwise the first match. |
| Launcher.Append | main.py:45 | Appending to the default dictionary extends the record's group when its UID is a key, in place, and otherwise adds a new group at the end. Other keys and their positions are unchanged. The record ends its UID's group, and distinct keys stay distinct. |
| Launcher.Visit | main.py:36-48 | A failed parse or another modality leaves the dictionary as it was. A kept file's record is added after the earlier records of its series, in the group at the UID's existing position, or in a new group at the end. Every other group and every key position is unchanged. The dictionary grows by one key exactly when the UID is new, and its keys stay distinct. |
| Launcher.GroupSeries | main.py:31-48 | The series dictionary built by the loop has distinct keys, no more keys than kept files, and no empty group. The full characterisation is `GroupSeriesCorrect`. |
| Launcher.KeyIndex | main.py:45 | The dictionary lookup finds the first group with the UID, or reports the size when there is none. |
| Launcher.Kept | main.py:33-48 | The successful parses with modality CT, MR or PET: every such record is included, nothing else is, and there are no more of them than files. Listing order comes from the definition, which appends each file after the ones before it, and is stated as a property by `KeptConcat`. |
| Launcher.KeptConcat | main.py:33-48 | Filtering a listing handles each file independently: filtering `a + b` gives the filtered `a` followed by the filtered `b`. |
| Launcher.AppendKeepsGrouping | main.py:45 | `dicom_series[uid].append(r)` turns a correct grouping of `rs` into a correct grouping of `rs + [r]`. |
| Launcher.GroupRecordsCorrect | main.py:31-45 | Appending records one by one groups them correctly. Keys are distinct and in first-appearance order. Each group holds exactly its UID's records, in order, and is non-empty. Every record is in a group, and the group sizes add up to the number of records. |
| Launcher.GroupSeriesIsGroupRecords | main.py:33-48 | The loop over the listing builds the dictionary of the kept records. |
| Launcher.GroupSeriesCorrect | main.py:31-48 | The series dictionary of `main` is the grouping of the kept records, and its total size equals the number of successful CT/MR/PET parses. |
| Launcher.GroupsAreHomogeneous | main.py:41-45 | Every group is non-empty. Each of its records carries the group's UID and an accepted modality, and comes from the listing. |
| Launcher.SkippedFileIsInvisible | main.py:36-48 | Inserting a failed parse, or a file of another modality, anywhere in the listing leaves the dictionary unchanged. |
| Launcher.OpenViewers | main.py:51-53 | Viewers are constructed group by group, in dictionary order. Each opened viewer is the construction for its group. The first construction failure ends the loop, and since failure depends only on the structure, a failure means no viewer opened. |
| Launcher.Launch | main.py:24-53 | `main` ends without an exception exactly when there is no series at all, or the glob found a structure file with a non-empty path and its structure has series data. Without an exception it opens one viewer per series. With one, no viewer opens. The exception is the `None` structure one exactly when there is a series and no structure file was found. It is the empty-series-data one (the `IndexError` on `series_data[0]`) exactly when there is a series, a structure file was found, and its structure has no series data. |
| Launcher.LaunchWithoutStructureFile | main.py:20-52 | With no structure file match and at least one kept file, `main` opens no viewer and raises on the `None` structure. |
| Launcher.LaunchOpensOneViewerPerSeries | main.py:20-53 | With a structure file whose structure has series data, `main` opens exactly one viewer per series, in first-appearance order. Each viewer covers that series' files, starts at slice 0 and is interactive, so the zero-slice branch is never taken. |

## Left out

- Drawing (matplotlib): the figure, `imshow`, titles, the `Slider` widget, canvas redraws, and wiring the key and slider callbacks. These are display effects. A frame records what would be drawn.
- The slider re-entrancy. `set_val` in the key handler calls `update` again through `on_changed`. That behaviour belongs to the widget library, so each event is modelled as one render.
- Exceptions raised inside a callback. The widget library decides whether they propagate. Here a failed render is a `Failure` frame, and the index change that came before it stands. The partial redraw before the `IndexError` is not modelled: the new image and title are already set, and the old contour lines already removed, when the mask plane lookup raises.
- The contents of the masks and the contours: `remove_small_holes`, `remove_small_objects` and `find_contours` are foreign calls that produce floating-point geometry. A render records only which plane they receive and with which threshold.
- RtViewer.Render: does not state what the contours look like, only the plane and threshold passed to the cleaning and tracing calls, for the reason above.
- The mask itself. `rt_utils` builds it with `get_roi_mask_by_name`, and it is reduced to its depth. An error from that call for a missing ROI name is not modelled, because that library's code is not part of this model.
- File I/O: `os.listdir`, the `natsort` ordering, `dcmread` and `glob`. The sorted listing arrives as a sequence of parse results, and the glob as a sequence of matches. `RTStructBuilder.create_from` is represented by the structure it returns.
- `show()` and the error printing in `main`. They are console output only. The blocking `plt.show()` between viewers is not modelled.
- Failures of `RTStructBuilder.create_from`. Whenever a path was found, `main` is given the structure the builder returns. A builder failure, which would raise out of `main`, is not modelled.

=== FILE: launcher.dfy ===
/**
 The launcher of `main.py`: locating the RT structure file, grouping the
 readable image files of a directory by series, and opening one viewer per
 series.  The directory listing, in its sorted order, is given as a sequence
 of parse results; reading files is left to the caller.
 */
module Launcher {
  import opened Wrappers
  import RtViewer

  /** A parsed DICOM file, reduced to the fields the launcher reads, with the
      listed file name standing for the rest of the dataset. */
  datatype Record = Record(fileName: string, uid: string, modality: string)

  /** Reading one listed file: its record, or any exception while reading it
      or its series UID and modality. */
  datatype ParseResult = Parsed(record: Record) | Unreadable

  /** One entry of the series dictionary: a series UID and its records. */
  datatype Group = Group(uid: string, records: seq<Record>)

  /** How a launch ends: the viewers opened, in order, and the exception that
      stopped it, if any. */
  datatype Outcome = Outcome(viewers: seq<RtViewer.Viewer>, crash: Option<RtViewer.Crash>)

  // ---------------------------------------------------------------- structure file

  /** `find_rs_structure_file` over the matches of its glob pattern: the first
      match, or `None` when nothing matched. */
  function FindRsStructureFile(matches: seq<string>): (r: Option<string>)
    ensures r.None? <==> |matches| == 0
    ensures r.Some? ==> r.value in matches && r.value == matches[0]
  {
    if |matches| > 0 then Some(matches[0]) else None
  }

  // ---------------------------------------------------------------- grouping

  /** The image modalities the launcher displays. */
  predicate Accepted(modality: string)
  {
    modality == "CT" || modality == "MR" || modality == "PET"
  }

  /** Whether a parse result is added to the series dictionary. */
  predicate Keep(p: ParseResult)
  {
    p.Parsed? && Accepted(p.record.modality)
  }

  /** The first position from `from` on at which `uids` holds `uid`, or
      `|uids|` when there is none. */
  function FirstIndexFrom(uids: seq<string>, uid: string, from: nat): (k: nat)
    requires from <= |uids|
    ensures from <= k <= |uids|
    ensures k < |uids| ==> uids[k] == uid
    ensures forall j :: from <= j < k ==> uids[j] != uid
    decreases |uids| - from
  {
    if from == |uids| then from
    else if uids[from] == uid then from
    else FirstIndexFrom(uids, uid, from + 1)
  }

  /** The keys of the dictionary, in insertion order. */
  function Keys(gs: seq<Group>): (u: seq<string>)
    ensures |u| == |gs|
    ensures forall j :: 0 <= j < |gs| ==> u[j] == gs[j].uid
  {
    seq(|gs|, j requires 0 <= j < |gs| => gs[j].uid)
  }

  /** The position of key `uid` in the dictionary, or its size when absent. */
  function KeyIndex(gs: seq<Group>, uid: string): (k: nat)
    ensures k <= |gs|
    ensures k < |gs| ==> gs[k].uid == uid
    ensures forall j :: 0 <= j < k ==> gs[j].uid != uid
  {
    FirstIndexFrom(Keys(gs), uid, 0)
  }

  /** `dicom_series[uid].append(r)` on a default dictionary kept in insertion
      order: extend the group of `r`'s UID, or add a new group at the end. */
  function Append(gs: seq<Group>, r: Record): (a: seq<Group>)
    ensures KeyIndex(gs, r.uid) < |gs| ==> |a| == |gs|
    ensures KeyIndex(gs, r.uid) == |gs| ==> |a| == |gs| + 1
    ensures forall j :: 0 <= j < |gs| ==> a[j].uid == gs[j].uid
    ensures forall j :: 0 <= j < |gs| && gs[j].uid != r.uid ==> a[j] == gs[j]
    ensures KeyIndex(a, r.uid) == KeyIndex(gs, r.uid)
    ensures a[KeyIndex(a, r.uid)].records ==
      (if KeyIndex(gs, r.uid) < |gs| then gs[KeyIndex(gs, r.uid)].records else []) + [r]
    ensures DistinctKeys(gs) ==> DistinctKeys(a)
  {
    var k := KeyIndex(gs, r.uid);
    if k < |gs| then gs[k := Group(r.uid, gs[k].records + [r])]
    else
      var a := gs + [Group(r.uid, [r])];
      assert a[|gs|].uid == r.uid;
      assert forall j :: 0 <= j < |gs| ==> a[j] == gs[j];
      a
  }

  /** The loop body for one listed file: failures and other modalities are skipped. */
  function Visit(gs: seq<Group>, p: ParseResult): (v: seq<Group>)
    ensures !Keep(p) ==> v == gs
    ensures Keep(p) ==> KeyIndex(v, p.record.uid) < |v|
    ensures Keep(p) ==>
      var g := v[KeyIndex(v, p.record.uid)].records; |g| > 0 && g[|g| - 1] == p.record
    ensures |gs| <= |v| <= |gs| + 1
    ensures |v| == if Keep(p) && KeyIndex(gs, p.record.uid) == |gs| then |gs| + 1 else |gs|
    ensures Keep(p) ==>
      && KeyIndex(v, p.record.uid) == KeyIndex(gs, p.record.uid)
      && v[KeyIndex(gs, p.record.uid)].records ==
           (if KeyIndex(gs, p.record.uid) < |gs| then gs[KeyIndex(gs, p.record.uid)].records else []) + [p.record]
    ensures forall j :: 0 <= j < |gs| ==> v[j].uid == gs[j].uid
    ensures forall j :: 0 <= j < |gs| && (!Keep(p) || gs[j].uid != p.record.uid) ==> v[j] == gs[j]
    ensures DistinctKeys(gs) ==> DistinctKeys(v)
  {
    if Keep(p) then Append(gs, p.record) else gs
  }

  /** The series dictionary after the loop over the sorted listing. */
  function GroupSeries(listing: seq<ParseResult>): (gs: seq<Group>)
    ensures |gs| <= |Kept(listing)|
    ensures DistinctKeys(gs)
    ensures forall j :: 0 <= j < |gs| ==> |gs[j].records| > 0
    decreases |listing|
  {
    if |listing| == 0 then []
    else Visit(GroupSeries(listing[..|listing| - 1]), listing[|listing| - 1])
  }

  /** The same dictionary built from records that are all appended. */
  function GroupRecords(rs: seq<Record>): seq<Group>
    decreases |rs|
  {
    if |rs| == 0 then []
    else Append(GroupRecords(rs[..|rs| - 1]), rs[|rs| - 1])
  }

  // ---------------------------------------------------------------- reference definitions

  /** The records of the listing that read successfully with an accepted
      modality, in listing order. */
  ghost function Kept(listing: seq<ParseResult>): (rs: seq<Record>)
    ensures |rs| <= |listing|
    ensures forall x :: x in rs ==> Parsed(x) in listing && Accepted(x.modality)
    ensures forall k :: 0 <= k < |listing| && Keep(listing[k]) ==> listing[k].record in rs
    decreases |listing|
  {
    if |listing| == 0 then []
    else
      var last := listing[|listing| - 1];
      Kept(listing[..|listing| - 1]) + if Keep(last) then [last.record] else []
  }

  /** The records of `rs` whose series UID is `uid`, in order. */
  ghost function WithUid(rs: seq<Record>, uid: string): (w: seq<Record>)
    ensures |w| <= |rs|
    ensures forall x :: x in w ==> x in rs && x.uid == uid
    ensures forall k :: 0 <= k < |rs| && rs[k].uid == uid ==> rs[k] in w
    decreases |rs|
  {
    if |rs| == 0 then []
    else
      var last := rs[|rs| - 1];
      WithUid(rs[..|rs| - 1], uid) + if last.uid == uid then [last] else []
  }

  /** The series UIDs of `rs`, in order: the projection `Keys` makes of the
      dictionary, made here of the record sequence so that `FirstPos` can use
      the same search `FirstIndexFrom` as `KeyIndex`. */
  ghost function Uids(rs: seq<Record>): (u: seq<string>)
    ensures |u| == |rs|
    ensures forall j :: 0 <= j < |rs| ==> u[j] == rs[j].uid
  {
    seq(|rs|, j requires 0 <= j < |rs| => rs[j].uid)
  }

  /** The position of the first record of series `uid` in `rs`, or `|rs|`. */
  ghost function FirstPos(rs: seq<Record>, uid: string): (p: nat)
    ensures p <= |rs|
    ensures p < |rs| ==> rs[p].uid == uid
    ensures forall j :: 0 <= j < p ==> rs[j].uid != uid
  {
    FirstIndexFrom(Uids(rs), uid, 0)
  }

  /** The number of records over all groups. */
  ghost function Total(gs: seq<Group>): nat
    decreases |gs|
  {
    if |gs| == 0 then 0 else Total(gs[..|gs| - 1]) + |gs[|gs| - 1].records|
  }

  /** No series UID is a key twice. */
  ghost predicate DistinctKeys(gs: seq<Group>)
  {
    forall j, k :: 0 <= j < k < |gs| ==> gs[j].uid != gs[k].uid
  }

  /** Each group holds exactly the records of its UID, in order, and at least one. */
  ghost predicate ExactGroups(gs: seq<Group>, rs: seq<Record>)
  {
    forall j :: 0 <= j < |gs| ==> gs[j].records == WithUid(rs, gs[j].uid) && |gs[j].records| > 0
  }

  /** Every record's UID is a key. */
  ghost predicate Covers(gs: seq<Group>, rs: seq<Record>)
  {
    forall i :: 0 <= i < |rs| ==> KeyIndex(gs, rs[i].uid) < |gs|
  }

  /** Keys come in the order their UIDs first occur in `rs`. */
  ghost predicate FirstAppearanceOrder(gs: seq<Group>, rs: seq<Record>)
  {
    forall j, k :: 0 <= j < k < |gs| ==> FirstPos(rs, gs[j].uid) < FirstPos(rs, gs[k].uid)
  }

  /** `gs` is the grouping of `rs` by series: one group per UID, in order of
      first appearance, each holding exactly the records of its UID in their
      original order, every record landing in a group, none lost or invented. */
  ghost predicate GroupsOf(gs: seq<Group>, rs: seq<Record>)
  {
    && DistinctKeys(gs)
    && ExactGroups(gs, rs)
    && Covers(gs, rs)
    && FirstAppearanceOrder(gs, rs)
    && Total(gs) == |rs|
  }

  // ---------------------------------------------------------------- helper lemmas

  /** Appending a record of another series leaves a series' records alone. */
  lemma WithUidSnoc(rs: seq<Record>, r: Record, uid: string)
    ensures WithUid(rs + [r], uid) == WithUid(rs, uid) + if r.uid == uid then [r] else []
  {
    assert (rs + [r])[..|rs|] == rs;
  }

  /** A series with no record in `rs` has no records in `rs`'s grouping. */
  lemma {:induction false} WithUidNone(rs: seq<Record>, uid: string)
    requires forall i :: 0 <= i < |rs| ==> rs[i].uid != uid
    ensures WithUid(rs, uid) == []
    decreases |rs|
  {
    if |rs| > 0 {
      WithUidNone(rs[..|rs| - 1], uid);
    }
  }

  /** A series that already occurs keeps its first position when a record is appended. */
  lemma FirstPosSnoc(rs: seq<Record>, r: Record, uid: string)
    ensures FirstPos(rs, uid) < |rs| ==> FirstPos(rs + [r], uid) == FirstPos(rs, uid)
    ensures FirstPos(rs, uid) == |rs| && r.uid == uid ==> FirstPos(rs + [r], uid) == |rs|
  {
    var p, q := FirstPos(rs, uid), FirstPos(rs + [r], uid);
    if p < |rs| {
      assert (rs + [r])[p] == rs[p];
    } else if r.uid == uid {
      assert (rs + [r])[|rs|] == r;
    }
  }

  /** Replacing one group changes the total by the difference in its size. */
  lemma {:induction false} TotalUpdate(gs: seq<Group>, k: nat, g: Group)
    requires k < |gs|
    ensures Total(gs[k := g]) == Total(gs) - |gs[k].records| + |g.records|
    decreases |gs|
  {
    var n := |gs|;
    if k < n - 1 {
      assert gs[k := g][..n - 1] == gs[..n - 1][k := g];
      TotalUpdate(gs[..n - 1], k, g);
    } else {
      assert gs[k := g][..n - 1] == gs[..n - 1];
    }
  }

  /** Every key of an exact grouping first occurs somewhere in `rs`. */
  lemma KeysOccur(gs: seq<Group>, rs: seq<Record>)
    requires ExactGroups(gs, rs)
    ensures forall j :: 0 <= j < |gs| ==> FirstPos(rs, gs[j].uid) < |rs|
  {
    forall j | 0 <= j < |gs|
      ensures FirstPos(rs, gs[j].uid) < |rs|
    {
      if FirstPos(rs, gs[j].uid) == |rs| {
        WithUidNone(rs, gs[j].uid);
      }
    }
  }

  /** Appending a record of a known series extends that series' group only. */
  lemma AppendToExistingGroup(gs: seq<Group>, rs: seq<Record>, r: Record)
    requires GroupsOf(gs, rs) && KeyIndex(gs, r.uid) < |gs|
    ensures GroupsOf(Append(gs, r), rs + [r])
  {
    var k := KeyIndex(gs, r.uid);
    ExistingKeysUnchanged(gs, r);
    ExistingExact(gs, rs, r);
    ExistingCovers(gs, rs, r);
    ExistingOrder(gs, rs, r);
    TotalUpdate(gs, k, Group(r.uid, gs[k].records + [r]));
  }

  /** Extending an existing group keeps every key in place. */
  lemma ExistingKeysUnchanged(gs: seq<Group>, r: Record)
    requires KeyIndex(gs, r.uid) < |gs|
    ensures |Append(gs, r)| == |gs|
    ensures forall j :: 0 <= j < |gs| ==> Append(gs, r)[j].uid == gs[j].uid
    ensures DistinctKeys(gs) ==> DistinctKeys(Append(gs, r))
  {
  }

  /** Extending an existing group keeps every group exact. */
  lemma ExistingExact(gs: seq<Group>, rs: seq<Record>, r: Record)
    requires DistinctKeys(gs) && ExactGroups(gs, rs) && KeyIndex(gs, r.uid) < |gs|
    ensures ExactGroups(Append(gs, r), rs + [r])
  {
    var rs', gs', k := rs + [r], Append(gs, r), KeyIndex(gs, r.uid);
    forall j | 0 <= j < |gs'|
      ensures gs'[j].records == WithUid(rs', gs'[j].uid) && |gs'[j].records| > 0
    {
      WithUidSnoc(rs, r, gs[j].uid);
      if j != k {
        assert gs'[j] == gs[j];
      }
    }
  }

  /** Extending an existing group keeps every record's UID a key. */
  lemma ExistingCovers(gs: seq<Group>, rs: seq<Record>, r: Record)
    requires Covers(gs, rs) && KeyIndex(gs, r.uid) < |gs|
    ensures Covers(Append(gs, r), rs + [r])
  {
    var rs', gs' := rs + [r], Append(gs, r);
    ExistingKeysUnchanged(gs, r);
    forall i | 0 <= i < |rs'|
      ensures KeyIndex(gs', rs'[i].uid) < |gs'|
    {
      var u := rs'[i].uid;
      if i < |rs| {
        assert rs'[i] == rs[i];
      }
      var m := KeyIndex(gs, u);
      assert gs'[m].uid == u;
    }
  }

  /** Extending an existing group keeps the keys in first-appearance order. */
  lemma ExistingOrder(gs: seq<Group>, rs: seq<Record>, r: Record)
    requires ExactGroups(gs, rs) && FirstAppearanceOrder(gs, rs) && KeyIndex(gs, r.uid) < |gs|
    ensures FirstAppearanceOrder(Append(gs, r), rs + [r])
  {
    var rs', gs' := rs + [r], Append(gs, r);
    ExistingKeysUnchanged(gs, r);
    KeysOccur(gs, rs);
    forall j | 0 <= j < |gs|
      ensures FirstPos(rs', gs'[j].uid) == FirstPos(rs, gs[j].uid)
    {
      FirstPosSnoc(rs, r, gs[j].uid);
    }
  }

  /** Appending a record of an unseen series adds its group at the end. */
  lemma AppendNewGroup(gs: seq<Group>, rs: seq<Record>, r: Record)
    requires GroupsOf(gs, rs) && KeyIndex(gs, r.uid) == |gs|
    ensures GroupsOf(Append(gs, r), rs + [r])
  {
    NewUnseen(gs, rs, r);
    NewExact(gs, rs, r);
    NewCovers(gs, rs, r);
    NewOrder(gs, rs, r);
    assert (gs + [Group(r.uid, [r])])[..|gs|] == gs;
  }

  /** A UID that is not a key has no record yet. */
  lemma NewUnseen(gs: seq<Group>, rs: seq<Record>, r: Record)
    requires Covers(gs, rs) && KeyIndex(gs, r.uid) == |gs|
    ensures forall i :: 0 <= i < |rs| ==> rs[i].uid != r.uid
    ensures WithUid(rs, r.uid) == [] && FirstPos(rs, r.uid) == |rs|
  {
    assert forall i :: 0 <= i < |rs| ==> rs[i].uid != r.uid;
    WithUidNone(rs, r.uid);
  }

  /** A new group for an unseen UID keeps every group exact. */
  lemma NewExact(gs: seq<Group>, rs: seq<Record>, r: Record)
    requires ExactGroups(gs, rs) && KeyIndex(gs, r.uid) == |gs| && WithUid(rs, r.uid) == []
    ensures ExactGroups(Append(gs, r), rs + [r])
  {
    var rs', gs' := rs + [r], Append(gs, r);
    forall j | 0 <= j < |gs'|
      ensures gs'[j].records == WithUid(rs', gs'[j].uid) && |gs'[j].records| > 0
    {
      WithUidSnoc(rs, r, gs'[j].uid);
      if j < |gs| {
        assert gs'[j] == gs[j];
      }
    }
  }

  /** A new group for an unseen UID keeps every record's UID a key. */
  lemma NewCovers(gs: seq<Group>, rs: seq<Record>, r: Record)
    requires Covers(gs, rs) && KeyIndex(gs, r.uid) == |gs|
    ensures Covers(Append(gs, r), rs + [r])
  {
    var rs', gs' := rs + [r], Append(gs, r);
    assert gs' == gs + [Group(r.uid, [r])];
    forall i | 0 <= i < |rs'|
      ensures KeyIndex(gs', rs'[i].uid) < |gs'|
    {
      if i < |rs| {
        assert rs'[i] == rs[i];
        var m := KeyIndex(gs, rs[i].uid);
        assert gs'[m] == gs[m];
      } else {
        assert rs'[i] == r && gs'[|gs|].uid == r.uid;
      }
    }
  }

  /** A new group for an unseen UID goes last in first-appearance order. */
  lemma NewOrder(gs: seq<Group>, rs: seq<Record>, r: Record)
    requires ExactGroups(gs, rs) && FirstAppearanceOrder(gs, rs) && KeyIndex(gs, r.uid) == |gs|
    requires FirstPos(rs, r.uid) == |rs|
    ensures FirstAppearanceOrder(Append(gs, r), rs + [r])
  {
    var rs', gs' := rs + [r], Append(gs, r);
    KeysOccur(gs, rs);
    FirstPosSnoc(rs, r, r.uid);
    forall j, k | 0 <= j < k < |gs'|
      ensures FirstPos(rs', gs'[j].uid) < FirstPos(rs', gs'[k].uid)
    {
      assert gs'[j] == gs[j];
      FirstPosSnoc(rs, r, gs[j].uid);
      if k < |gs| {
        assert gs'[k] == gs[k];
        FirstPosSnoc(rs, r, gs[k].uid);
      }
    }
  }

  /** Appending one record to a correct grouping gives a correct grouping of
      the longer sequence. */
  lemma AppendKeepsGrouping(gs: seq<Group>, rs: seq<Record>, r: Record)
    requires GroupsOf(gs, rs)
    ensures GroupsOf(Append(gs, r), rs + [r])
  {
    if KeyIndex(gs, r.uid) < |gs| {
      AppendToExistingGroup(gs, rs, r);
    } else {
      AppendNewGroup(gs, rs, r);
    }
  }

  // ---------------------------------------------------------------- properties

  /** The dictionary after one more record is the dictionary before, appended to. */
  lemma GroupRecordsSnoc(pre: seq<Record>, last: Record)
    ensures GroupRecords(pre + [last]) == Append(GroupRecords(pre), last)
  {
    assert (pre + [last])[..|pre|] == pre;
  }

  /** Grouping any record sequence by appending meets the reference grouping. */
  lemma {:induction false} GroupRecordsCorrect(rs: seq<Record>)
    ensures GroupsOf(GroupRecords(rs), rs)
    decreases |rs|
  {
    if |rs| > 0 {
      var pre, last := rs[..|rs| - 1], rs[|rs| - 1];
      assert rs == pre + [last];
      GroupRecordsCorrect(pre);
      GroupRecordsSnoc(pre, last);
      AppendKeepsGrouping(GroupRecords(pre), pre, last);
    }
  }

  /** The loop over the listing groups exactly the kept records. */
  lemma {:induction false} GroupSeriesIsGroupRecords(listing: seq<ParseResult>)
    ensures GroupSeries(listing) == GroupRecords(Kept(listing))
    decreases |listing|
  {
    if |listing| > 0 {
      var n := |listing|;
      var pre, last := listing[..n - 1], listing[n - 1];
      GroupSeriesIsGroupRecords(pre);
      var rs := Kept(pre);
      assert GroupSeries(listing) == Visit(GroupSeries(pre), last);
      if Keep(last) {
        var rs' := rs + [last.record];
        assert Kept(listing) == rs';
        assert rs'[..|rs'| - 1] == rs && rs'[|rs'| - 1] == last.record;
        assert GroupRecords(rs') == Append(GroupRecords(rs), last.record);
      } else {
        assert Kept(listing) == rs;
      }
    }
  }

  /** The series dictionary of `main`: one group per series UID among the
      readable CT, MR and PET files, in order of first appearance, each holding
      exactly that series' records in listing order; the group sizes add up
      to the number of such files. */
  lemma GroupSeriesCorrect(listing: seq<ParseResult>)
    ensures GroupsOf(GroupSeries(listing), Kept(listing))
    ensures Total(GroupSeries(listing)) == |Kept(listing)|
  {
    GroupSeriesIsGroupRecords(listing);
    GroupRecordsCorrect(Kept(listing));
  }

  /** Every group is non-empty, and all its records carry the group's UID and
      an accepted modality. */
  lemma GroupsAreHomogeneous(listing: seq<ParseResult>)
    ensures forall j :: 0 <= j < |GroupSeries(listing)| ==>
      |GroupSeries(listing)[j].records| > 0
    ensures forall j, x :: 0 <= j < |GroupSeries(listing)| && x in GroupSeries(listing)[j].records ==>
      x.uid == GroupSeries(listing)[j].uid && Accepted(x.modality) && Parsed(x) in listing
  {
    GroupSeriesCorrect(listing);
  }

  /** Filtering distributes over concatenation of listings. */
  lemma {:induction false} KeptConcat(a: seq<ParseResult>, b: seq<ParseResult>)
    ensures Kept(a + b) == Kept(a) + Kept(b)
    decreases |b|
  {
    if |b| > 0 {
      var n := |b|;
      assert (a + b)[..|a + b| - 1] == a + b[..n - 1];
      assert (a + b)[|a + b| - 1] == b[n - 1];
      KeptConcat(a, b[..n - 1]);
    } else {
      assert a + b == a;
    }
  }

  /** A file that fails to parse, or has another modality, changes nothing. */
  lemma SkippedFileIsInvisible(a: seq<ParseResult>, p: ParseResult, b: seq<ParseResult>)
    requires !Keep(p)
    ensures GroupSeries(a + [p] + b) == GroupSeries(a + b)
  {
    assert (a + [p])[..|a|] == a;
    assert Kept(a + [p]) == Kept(a);
    KeptConcat(a + [p], b);
    KeptConcat(a, b);
    GroupSeriesIsGroupRecords(a + [p] + b);
    GroupSeriesIsGroupRecords(a + b);
  }

  // ---------------------------------------------------------------- opening viewers

  /** The loop opening one viewer per group, in dictionary order.  A
      construction exception is not caught, so the first one ends the loop. */
  function OpenViewers(groups: seq<Group>, rs: Option<RtViewer.Structure>): (o: Outcome)
    ensures |o.viewers| <= |groups|
    ensures o.crash.None? ==> |o.viewers| == |groups|
    ensures o.crash.Some? ==> o.viewers == []
    ensures forall j :: 0 <= j < |o.viewers| ==>
      RtViewer.Construct(groups[j].uid, |groups[j].records|, rs) == Success(o.viewers[j])
    ensures o.crash.Some? ==>
      && |o.viewers| < |groups|
      && RtViewer.Construct(groups[|o.viewers|].uid, |groups[|o.viewers|].records|, rs) == Failure(o.crash.value)
    decreases |groups|
  {
    if |groups| == 0 then Outcome([], None)
    else
      match RtViewer.Construct(groups[0].uid, |groups[0].records|, rs)
      case Failure(e) => Outcome([], Some(e))
      case Success(v) =>
        var rest := OpenViewers(groups[1..], rs);
        Outcome([v] + rest.viewers, rest.crash)
  }

  /** `main`: find the structure file, build the structure from it when a
      path was found (`built` stands for what the builder returns), group the
      listing and open a viewer per series. */
  function Launch(matches: seq<string>, built: RtViewer.Structure, listing: seq<ParseResult>): (o: Outcome)
    ensures o.crash.None? <==>
      |GroupSeries(listing)| == 0 || (|matches| > 0 && matches[0] != "" && |built.seriesUids| > 0)
    ensures o.crash.None? ==> |o.viewers| == |GroupSeries(listing)|
    ensures o.crash.Some? ==> o.viewers == []
    ensures o.crash == Some(RtViewer.NoneHasNoSeriesData) <==>
      |GroupSeries(listing)| > 0 && (|matches| == 0 || matches[0] == "")
    ensures o.crash == Some(RtViewer.SeriesDataEmpty) <==>
      |GroupSeries(listing)| > 0 && |matches| > 0 && matches[0] != "" && |built.seriesUids| == 0
  {
    var path := FindRsStructureFile(matches);
    var rs := if path.Some? && path.value != "" then Some(built) else None;
    OpenViewers(GroupSeries(listing), rs)
  }

  /** Without a structure file the first viewer raises on its `None`
      structure, so no viewer opens when there is any series at all. */
  lemma LaunchWithoutStructureFile(built: RtViewer.Structure, listing: seq<ParseResult>)
    requires |Kept(listing)| > 0
    ensures Launch([], built, listing).viewers == []
    ensures Launch([], built, listing).crash == Some(RtViewer.NoneHasNoSeriesData)
  {
    GroupSeriesCorrect(listing);
    var gs := GroupSeries(listing);
    assert KeyIndex(gs, Kept(listing)[0].uid) < |gs|;
  }

  /** With a usable structure file, `main` opens exactly one viewer per
      series, in order of first appearance, each over that series' files,
      starting at slice 0 with its handlers connected: the zero-slice branch
      of the viewer is never taken. */
  lemma LaunchOpensOneViewerPerSeries(matches: seq<string>, built: RtViewer.Structure, listing: seq<ParseResult>)
    requires |matches| > 0 && matches[0] != "" && |built.seriesUids| > 0
    ensures Launch(matches, built, listing).crash == None
    ensures |Launch(matches, built, listing).viewers| == |GroupSeries(listing)|
    ensures forall j :: 0 <= j < |GroupSeries(listing)| ==>
      var v := Launch(matches, built, listing).viewers[j];
      && v.seriesUid == GroupSeries(listing)[j].uid
      && v.sliceCount == |GroupSeries(listing)[j].records|
      && v.current == 0
      && RtViewer.Ready(v)
  {
    GroupSeriesCorrect(listing);
    var gs := GroupSeries(listing);
    var o := OpenViewers(gs, Some(built));
  }
}

=== FILE: rt_viewer.dfy ===
/**
 The slice viewer of `rt_viewer.py`: construction guards, the slice index driven
 by key presses and slider moves, and the arguments every render hands to the
 contour overlay.  Drawing, the mask cleaning and the contour tracing are
 foreign library calls; a render is described by what it asks them to do.
 */
module RtViewer {
  import opened Wrappers

  /** The declared default `min_size` of the overlay, which no caller relies on. */
  const DefaultMinSize: int := 32

  /** An RT structure set, reduced to what the viewer reads from it: the series
      UIDs of its referenced series data, in order, and the depth of the mask
      it builds for the ROI named "Liver". */
  datatype Structure = Structure(seriesUids: seq<string>, maskDepth: nat)

  /** A loaded 3D ROI mask (rows x columns x depth); only the depth matters here. */
  datatype Mask = Mask(depth: nat)

  /** The exceptions the viewer raises. */
  datatype Crash =
    | NoneHasNoSeriesData   // the structure argument is `None`
    | SeriesDataEmpty       // the structure references no series data
    | MaskPlaneOutOfRange   // the mask has no plane for the current slice

  /** A viewer's state.  `interactive` records whether construction went past
      the zero-slice guard, that is, whether the figure, slider and key handler
      exist at all. */
  datatype Viewer = Viewer(
    seriesUid: string,
    sliceCount: nat,
    rtStruct: Option<Structure>,
    roiMask: Option<Mask>,
    current: int,
    interactive: bool)

  /** The "Slice counter/total" title shown above the image. */
  datatype Title = Title(counter: int, total: nat)

  /** What the contour overlay does on a render: nothing, or clean and trace
      mask plane `plane` with size threshold `minSize`. */
  datatype Overlay = NotDrawn | Traced(plane: nat, minSize: int)

  /** One rendered frame: the slice whose pixels are shown, the title and the overlay. */
  datatype Frame = Frame(image: nat, title: Title, overlay: Overlay)

  /** A navigation input: a key press, or the slider reporting a new value. */
  datatype Event = KeyPress(key: string) | SliderChanged(value: int)

  /** A viewer whose handlers are connected and whose index names a slice. */
  predicate Ready(v: Viewer)
  {
    v.interactive && 0 <= v.current < v.sliceCount
  }

  // ---------------------------------------------------------------- construction

  /** `RTViewer(series_uid, dicom_files, rt_struct)` for `sliceCount` slices.
      The structure's first series UID is read before any `None` test, so a
      missing structure raises; the structure is kept only on a UID match; zero
      slices stop construction before the mask is loaded; otherwise the mask is
      loaded from the structure whether or not its UID matched. */
  function Construct(seriesUid: string, sliceCount: nat, rs: Option<Structure>): (r: Result<Viewer, Crash>)
    ensures rs.None? ==> r == Failure(NoneHasNoSeriesData)
    ensures rs.Some? && |rs.value.seriesUids| == 0 ==> r == Failure(SeriesDataEmpty)
    ensures r.Success? <==> rs.Some? && |rs.value.seriesUids| > 0
    ensures r.Success? ==>
      && r.value.seriesUid == seriesUid
      && r.value.sliceCount == sliceCount
      && r.value.current == 0
      && (r.value.rtStruct.Some? <==> rs.value.seriesUids[0] == seriesUid)
      && (r.value.rtStruct.Some? ==> r.value.rtStruct == rs)
      && (r.value.interactive <==> sliceCount > 0)
      && (r.value.roiMask.Some? <==> sliceCount > 0)
    ensures r.Success? && sliceCount > 0 ==>
      Ready(r.value) && r.value.roiMask == Some(Mask(rs.value.maskDepth))
  {
    match rs
    case None => Failure(NoneHasNoSeriesData)
    case Some(s) =>
      if |s.seriesUids| == 0 then Failure(SeriesDataEmpty)
      else
        var kept := if s.seriesUids[0] == seriesUid then rs else None;
        if sliceCount == 0 then
          Success(Viewer(seriesUid, 0, kept, None, 0, false))
        else
          Success(Viewer(seriesUid, sliceCount, kept, Some(Mask(s.maskDepth)), 0, true))
  }

  /** The first frame construction draws: the image and title of the current
      slice, with no overlay, since construction never calls the overlay. */
  function OpeningFrame(v: Viewer): (f: Frame)
    requires Ready(v)
    ensures f.image == v.current && f.title == Title(v.current + 1, v.sliceCount)
    ensures f.overlay == NotDrawn
    ensures Render(v).Success? ==> f == Render(v).value.(overlay := NotDrawn)
  {
    Frame(v.current, Title(v.current + 1, v.sliceCount), NotDrawn)
  }

  /** A viewer with slices opens on slice 0, titled "1/N", without contours
      until the first event. */
  lemma OpensOnFirstSlice(seriesUid: string, sliceCount: nat, rs: Option<Structure>)
    requires sliceCount > 0 && Construct(seriesUid, sliceCount, rs).Success?
    ensures Ready(Construct(seriesUid, sliceCount, rs).value)
    ensures OpeningFrame(Construct(seriesUid, sliceCount, rs).value) == Frame(0, Title(1, sliceCount), NotDrawn)
  {
  }

  /** A structure whose UID does not match is dropped, yet its mask is loaded
      and overlaid all the same. */
  lemma MaskLoadedOnMismatch(seriesUid: string, sliceCount: nat, s: Structure)
    requires |s.seriesUids| > 0 && s.seriesUids[0] != seriesUid && sliceCount > 0
    ensures Construct(seriesUid, sliceCount, Some(s)).Success?
    ensures Construct(seriesUid, sliceCount, Some(s)).value.rtStruct == None
    ensures Construct(seriesUid, sliceCount, Some(s)).value.roiMask == Some(Mask(s.maskDepth))
  {
  }

  /** With zero slices construction succeeds past the UID check but loads no
      mask and connects no handlers. */
  lemma ZeroSlicesStopBeforeMask(seriesUid: string, s: Structure)
    requires |s.seriesUids| > 0
    ensures Construct(seriesUid, 0, Some(s)).Success?
    ensures !Construct(seriesUid, 0, Some(s)).value.interactive
    ensures Construct(seriesUid, 0, Some(s)).value.roiMask == None
    ensures (Construct(seriesUid, 0, Some(s)).value.rtStruct == Some(s)) <==> s.seriesUids[0] == seriesUid
  {
  }

  // ---------------------------------------------------------------- mask planes

  /** Python sequence indexing: the position a (possibly negative) index `k`
      names in a sequence of length `len`, or `None` for an IndexError.  The
      position is the one in range that is congruent to `k` modulo `len`. */
  function PyIndex(len: nat, k: int): (r: Option<nat>)
    ensures r.Some? <==> -(len as int) <= k < len
    ensures r.Some? ==> r.value < len && r.value % len == k % len
  {
    if 0 <= k < len then Some(k)
    else if k < 0 && 0 <= len + k then Some(len + k)
    else None
  }

  /** The mask plane read for slice `slice` of a mask of depth `depth`: the
      Python index `-slice - 1`.  Slices count from the last plane backwards. */
  function MaskPlane(slice: int, depth: nat): (r: Option<nat>)
    ensures 0 <= slice ==> (r.Some? <==> slice < depth)
    ensures 0 <= slice && r.Some? ==> r.value + slice == depth - 1
  {
    PyIndex(depth, -slice - 1)
  }

  /** The slice that reads plane `plane` of a mask of depth `depth`. */
  function SliceOfPlane(plane: nat, depth: nat): int
  {
    depth - 1 - plane
  }

  /** For a mask exactly as deep as the stack, slices and planes correspond one
      to one, slice 0 reading the last plane and the last slice plane 0. */
  lemma MaskPlaneBijection(n: nat)
    ensures forall i :: 0 <= i < n ==> MaskPlane(i, n).Some? && MaskPlane(i, n).value < n
    ensures forall i, j :: 0 <= i < n && 0 <= j < n && MaskPlane(i, n) == MaskPlane(j, n) ==> i == j
    ensures forall p :: 0 <= p < n ==> 0 <= SliceOfPlane(p, n) < n && MaskPlane(SliceOfPlane(p, n), n) == Some(p)
    ensures n > 0 ==> MaskPlane(0, n) == Some(n - 1) && MaskPlane(n - 1, n) == Some(0)
  {
  }

  // ---------------------------------------------------------------- rendering

  /** `overlay_roi_contour(min_size)`: nothing without a mask; otherwise the
      plane of the current slice (an IndexError when the mask is too shallow)
      cleaned with threshold `minSize`. */
  function OverlayRoiContour(v: Viewer, minSize: int): (r: Result<Overlay, Crash>)
    ensures v.roiMask.None? ==> r == Success(NotDrawn)
    ensures v.roiMask.Some? && 0 <= v.current ==>
      (r.Success? <==> v.current < v.roiMask.value.depth)
    ensures v.roiMask.Some? && r.Success? ==>
      r.value.Traced? && r.value.minSize == minSize
      && Some(r.value.plane) == MaskPlane(v.current, v.roiMask.value.depth)
    ensures r.Failure? ==> r.error == MaskPlaneOutOfRange
  {
    match v.roiMask
    case None => Success(NotDrawn)
    case Some(m) =>
      match MaskPlane(v.current, m.depth)
      case None => Failure(MaskPlaneOutOfRange)
      case Some(p) => Success(Traced(p, minSize))
  }

  /** The render both handlers perform after moving the index: show the
      current slice and its 1-based counter, then call the overlay with the
      current index as its only positional argument, which binds to `min_size`. */
  function Render(v: Viewer): (r: Result<Frame, Crash>)
    requires Ready(v)
    ensures r.Success? <==> v.roiMask.None? || v.current < v.roiMask.value.depth
    ensures r.Success? ==>
      && r.value.image == v.current
      && r.value.title.counter == v.current + 1
      && r.value.title.total == v.sliceCount
      && (r.value.overlay.Traced? <==> v.roiMask.Some?)
    ensures r.Success? && r.value.overlay.Traced? ==>
      r.value.overlay.minSize == v.current
      && r.value.overlay.plane == v.roiMask.value.depth - 1 - v.current
  {
    match OverlayRoiContour(v, v.current)
    case Failure(e) => Failure(e)
    case Success(o) => Success(Frame(v.current, Title(v.current + 1, v.sliceCount), o))
  }

  /** The cleaning threshold of every render is the slice index, so it equals
      the declared default only on slice 32. */
  lemma ThresholdIsSliceIndex(v: Viewer)
    requires Ready(v) && v.roiMask.Some? && v.current < v.roiMask.value.depth
    ensures Render(v).Success? && Render(v).value.overlay.Traced?
    ensures Render(v).value.overlay.minSize == v.current
    ensures Render(v).value.overlay.minSize == DefaultMinSize <==> v.current == 32
  {
  }

  // ---------------------------------------------------------------- navigation

  /** Keys that move one slice forward. */
  predicate IsForwardKey(key: string)
  {
    key == "down" || key == "right"
  }

  /** Keys that move one slice back. */
  predicate IsBackwardKey(key: string)
  {
    key == "up" || key == "left"
  }

  /** The index a key press leaves: one further clamped to the last slice, one
      back clamped to the first, or unchanged for any other key. */
  function KeyTarget(current: int, sliceCount: int, key: string): (r: int)
    ensures 0 <= current < sliceCount ==> 0 <= r < sliceCount
    ensures 0 <= current < sliceCount && IsForwardKey(key) ==>
      current <= r <= current + 1 && (r == current <==> current == sliceCount - 1)
    ensures 0 <= current < sliceCount && IsBackwardKey(key) ==>
      current - 1 <= r <= current && (r == current <==> current == 0)
    ensures !IsForwardKey(key) && !IsBackwardKey(key) ==> r == current
  {
    if IsForwardKey(key) then
      if current + 1 < sliceCount - 1 then current + 1 else sliceCount - 1
    else if IsBackwardKey(key) then
      if current - 1 > 0 then current - 1 else 0
    else current
  }

  /** `update_slice`: move the index for the key, then render, whatever the key. */
  function OnKey(v: Viewer, key: string): (r: (Viewer, Result<Frame, Crash>))
    requires Ready(v)
    ensures Ready(r.0) && r.0 == v.(current := r.0.current)
    ensures r.0.current == KeyTarget(v.current, v.sliceCount, key)
    ensures r.1 == Render(r.0)
  {
    var next := v.(current := KeyTarget(v.current, v.sliceCount, key));
    (next, Render(next))
  }

  /** `update`: take the slider's value as the index, then render.  The slider
      spans the slices in steps of one, so its value is always a slice. */
  function OnSlider(v: Viewer, value: int): (r: (Viewer, Result<Frame, Crash>))
    requires Ready(v) && 0 <= value < v.sliceCount
    ensures Ready(r.0) && r.0 == v.(current := value)
    ensures r.1 == Render(r.0)
  {
    var next := v.(current := value);
    (next, Render(next))
  }

  /** Whether the slider can report `e` for a stack of `sliceCount` slices. */
  predicate SliderInRange(sliceCount: nat, e: Event)
  {
    e.SliderChanged? ==> 0 <= e.value < sliceCount
  }

  /** Every slider value in `events` lies on the slider's range. */
  predicate Admissible(sliceCount: nat, events: seq<Event>)
  {
    forall k :: 0 <= k < |events| ==> SliderInRange(sliceCount, events[k])
  }

  /** Dispatch one event to its handler. */
  function Step(v: Viewer, e: Event): (r: (Viewer, Result<Frame, Crash>))
    requires Ready(v) && SliderInRange(v.sliceCount, e)
    ensures Ready(r.0) && r.0 == v.(current := r.0.current)
    ensures r.1 == Render(r.0)
    ensures e.KeyPress? ==> r == OnKey(v, e.key)
    ensures e.SliderChanged? ==> r == OnSlider(v, e.value)
  {
    match e
    case KeyPress(key) => OnKey(v, key)
    case SliderChanged(value) => OnSlider(v, value)
  }

  /** The state after each event of a session and the render it triggered.
      At every point the index names a slice, nothing but the index changes,
      and every event re-renders the slice it leaves. */
  function Session(v: Viewer, events: seq<Event>): (r: seq<(Viewer, Result<Frame, Crash>)>)
    requires Ready(v) && Admissible(v.sliceCount, events)
    ensures |r| == |events|
    ensures forall k :: 0 <= k < |r| ==>
      Ready(r[k].0) && r[k].0 == v.(current := r[k].0.current) && r[k].1 == Render(r[k].0)
    ensures |events| > 0 ==> r[0] == Step(v, events[0])
    ensures forall k :: 0 < k < |r| ==>
      SliderInRange(v.sliceCount, events[k]) && r[k] == Step(r[k - 1].0, events[k])
    decreases |events|
  {
    if |events| == 0 then []
    else
      assert SliderInRange(v.sliceCount, events[0]);
      var first := Step(v, events[0]);
      [first] + Session(first.0, events[1..])
  }

  /** The index after a whole session (the starting index if it is empty). */
  function Final(v: Viewer, events: seq<Event>): (i: int)
    requires Ready(v) && Admissible(v.sliceCount, events)
    ensures 0 <= i < v.sliceCount
  {
    if |events| == 0 then v.current else Session(v, events)[|events| - 1].0.current
  }

  /** From any freshly constructed viewer with slices, any sequence of key
      presses and in-range slider values keeps the index on a slice. */
  lemma IndexStaysInRange(seriesUid: string, sliceCount: nat, rs: Option<Structure>, events: seq<Event>)
    requires sliceCount >= 1 && Construct(seriesUid, sliceCount, rs).Success?
    requires Admissible(sliceCount, events)
    ensures forall k :: 0 <= k < |events| ==>
      0 <= Session(Construct(seriesUid, sliceCount, rs).value, events)[k].0.current < sliceCount
  {
  }

  /** When the mask is at least as deep as the stack, no render of a session fails. */
  lemma DeepMaskNeverFails(v: Viewer, events: seq<Event>)
    requires Ready(v) && Admissible(v.sliceCount, events)
    requires v.roiMask.None? || v.roiMask.value.depth >= v.sliceCount
    ensures forall k :: 0 <= k < |events| ==> Session(v, events)[k].1.Success?
  {
  }

  /** A shallower mask makes the render of slice `depth` raise. */
  lemma ShallowMaskFails(v: Viewer)
    requires Ready(v) && v.roiMask.Some? && v.roiMask.value.depth <= v.current
    ensures Render(v) == Failure(MaskPlaneOutOfRange)
  {
  }

  /** `count` copies of one event. */
  function Repeat(e: Event, count: nat): (es: seq<Event>)
    ensures |es| == count
    ensures forall k :: 0 <= k < count ==> es[k] == e
  {
    if count == 0 then [] else [e] + Repeat(e, count - 1)
  }

  /** `count` forward key presses move the index `count` slices on, stopping
      at the last slice. */
  lemma {:induction false} ForwardPresses(v: Viewer, key: string, count: nat)
    requires Ready(v) && IsForwardKey(key)
    ensures Admissible(v.sliceCount, Repeat(KeyPress(key), count))
    ensures Final(v, Repeat(KeyPress(key), count)) ==
      if v.current + count < v.sliceCount then v.current + count else v.sliceCount - 1
    decreases count
  {
    var es := Repeat(KeyPress(key), count);
    if count > 0 {
      var next := OnKey(v, key).0;
      assert es == [KeyPress(key)] + Repeat(KeyPress(key), count - 1);
      ForwardPresses(next, key, count - 1);
      SessionTail(v, es);
    }
  }

  /** `count` backward key presses move the index `count` slices back,
      stopping at the first slice. */
  lemma {:induction false} BackwardPresses(v: Viewer, key: string, count: nat)
    requires Ready(v) && IsBackwardKey(key)
    ensures Admissible(v.sliceCount, Repeat(KeyPress(key), count))
    ensures Final(v, Repeat(KeyPress(key), count)) ==
      if v.current - count > 0 then v.current - count else 0
    decreases count
  {
    var es := Repeat(KeyPress(key), count);
    if count > 0 {
      var next := OnKey(v, key).0;
      assert es == [KeyPress(key)] + Repeat(KeyPress(key), count - 1);
      BackwardPresses(next, key, count - 1);
      SessionTail(v, es);
    }
  }

  /** The session after the first event continues from the state that event left. */
  lemma SessionTail(v: Viewer, events: seq<Event>)
    requires Ready(v) && Admissible(v.sliceCount, events) && |events| > 0
    ensures SliderInRange(v.sliceCount, events[0])
    ensures Admissible(v.sliceCount, events[1..])
    ensures Final(v, events) == Final(Step(v, events[0]).0, events[1..])
  {
    assert SliderInRange(v.sliceCount, events[0]);
  }

  /** Ten slices: the viewer opens on slice 0, five forward presses reach
      slice 5, and ten presses more stop at slice 9. */
  lemma TenSliceWalk(seriesUid: string, s: Structure)
    requires |s.seriesUids| > 0
    ensures Construct(seriesUid, 10, Some(s)).Success?
    ensures Final(Construct(seriesUid, 10, Some(s)).value, Repeat(KeyPress("down"), 5)) == 5
    ensures Final(Construct(seriesUid, 10, Some(s)).value, Repeat(KeyPress("down"), 15)) == 9
  {
    var v := Construct(seriesUid, 10, Some(s)).value;
    ForwardPresses(v, "down", 5);
    ForwardPresses(v, "down", 15);
  }
}

=== FILE: wrappers.dfy ===
/**
 Optional values and success-or-failure results, used for Python's `None`
 and for the exceptions the viewer and the launcher can raise.
 */
module Wrappers {

  /** A value that may be absent (Python's `None`). */
  datatype Option<+T> = None | Some(value: T)

  /** The outcome of an operation that either returns a value or raises. */
  datatype Result<+R, +E> = Success(value: R) | Failure(error: E)
}
